=== FILE: README.md ===
# otp-java generators in Dafny

A model of the two generator classes of otp-java: `TOTPGenerator` (time-based
one-time passwords, RFC 6238) and `HOTPGenerator` (counter-based, RFC 4226).
It covers the parts of them that have logic of their own:

- **Time-step counter** (section 4.2 of RFC 6238, T0 = 0). This covers three
  things: the explicit-time path `TimeUnit.SECONDS.toMillis(secs) / period.toMillis()`,
  with the saturation of `toMillis` and Java's truncating long division; the
  clock path `nowMillis / period.toMillis()`; and the check that rejects a time
  of zero seconds or less.
- **Period validation.** The public constructor and `Builder.withPeriod` check
  the period. The builder default is 30 s. `Builder(URI)` parses `period` as
  whole seconds.
- **otpauth query decoding.** The query is a `map<string, string>`. A missing
  `secret` is an `IllegalArgumentException`. A malformed `digits` or
  `algorithm` becomes a single `URISyntaxException`. Absent fields take their
  defaults. The algorithm name is upper-cased before lookup.
- **otpauth query encoding.** Each generator writes exactly one type-specific
  item: `period` in whole seconds, or `counter`. Both are printed in decimal.

Modules, leaves first:

| file | module | contents |
|---|---|---|
| outcomes.dfy | `Outcomes` | `Option`, `Result`, and the exception classes (`Error`, `Reason`) |
| java_numbers.dfy | `JavaNumbers` | `long`/`int` ranges, Java's `/`, `TimeUnit` conversions, floor-division lemmas |
| decimal.dfy | `Decimal` | `Long.toString`, `Long.parseLong`, `Integer.valueOf`, and the print/parse round trips |
| otp_base.dfy | `OtpBase` | configuration, builder, algorithm lookup, decoding of the shared query items, engine and verifier types |
| totp.dfy | `Totp` | `Duration`, constructor, counters, `generate`/`verify` overloads, `getURI`, builder, `Builder(URI)` |
| hotp.dfy | `Hotp` | `fromURI`, `withDefaultValues`, `generate(counter)`, `getURI` |
| composition.dfy | `Composition` | how the two generators share one engine |

The model leaves the code engine abstract: HMAC over the big-endian counter,
then dynamic truncation. Every operation that produces a code takes an
`Engine`, a function from configuration and counter to the code, or to
`None` when the hash cannot be computed. So `generate(secs)` is stated as the
engine's code at `Counter(secs, period)`, with no HMAC involved.

`OTPGenerator`, the base class, is not part of this model. Where the two
generators call into it, the model assumes the following of it:

- The defaults are 6 digits and SHA1.
- `withPasswordLength` and the base constructor accept only lengths 6 to 8.
- The base constructor rejects an empty secret. The length is checked first.
- The two generators reach different base constructors. `HOTPGenerator`
  calls `super(builder)` (HOTPGenerator.java:21). `TOTPGenerator` calls the
  constructor that takes length, algorithm and secret (TOTPGenerator.java:38
  and :46). The model assumes both apply the same checks and sends both
  through `OtpBase.Construct`. `Composition.DefaultsAgree` rests on this.
- `TOTPGenerator.Builder(URI)` calls `super(uri)`. The model takes this to
  decode `secret`, `digits` and `algorithm` exactly as `HOTPGenerator.fromURI`
  does in its lines 32-50. `OtpBase.DecodeBuilder` models that decoding.
- The base `generate(counter)`, which `HOTPGenerator.generate` calls and
  which declares IllegalArgumentException, refuses a negative counter and
  otherwise runs the same engine as `generateCode`, which `TOTPGenerator` calls.
  `Hotp.Generate` models this, and `Composition.TotpIsHotpAtTimeStep` relies
  on it.
- The base two-argument `verify(code, counter)`, which `TOTPGenerator.verify(code)`
  calls, is the window-0 case of `verify(code, counter, window)`.
- The base `getURI` adds three query items: `secret`, which is the secret's
  text; `algorithm`, which is the enum name; and `digits`. `OtpBase.BaseQuery`
  models them, and the round-trip lemmas use them.

Three points where the code's behaviour is worth stating against outside
expectations; the model follows the code in each:

- The otpauth Key Uri Format makes `counter` required in an hotp URI.
  `fromURI` never reads `counter`, and the counter is supplied to each
  `generate` call instead (`Hotp.FromUriIgnoresCounter`).
- `fromURI` documents only URISyntaxException, for a URI that cannot be
  parsed (HOTPGenerator.java line 29). A missing `secret` instead escapes as
  IllegalArgumentException, because it is thrown before the try block.
- The public constructor (TOTPGenerator.java line 40) and `withPeriod`
  (line 230) refuse a period below 1 s, but the URI path does not. See
  "Findings" below.

## Model

| member | source | states |
|---|---|---|
| JavaNumbers.LongDiv | src/main/java/com/bastiaanjansen/otp/TOTPGenerator.java:160 | Java long division: the quotient is rounded toward zero. So the remainder is smaller than the divisor and takes the dividend's sign. LONG_MIN / -1 wraps to LONG_MIN |
| JavaNumbers.SecondsToMillis | src/main/java/com/bastiaanjansen/otp/TOTPGenerator.java:160 | `TimeUnit.SECONDS.toMillis` is seconds × 1000 clamped to the long range. It is exact exactly when \|secs\| ≤ LONG_MAX/1000 |
| JavaNumbers.MillisToSeconds | src/main/java/com/bastiaanjansen/otp/TOTPGenerator.java:80 | `TimeUnit.MILLISECONDS.toSeconds` gives the whole seconds, rounded toward zero. For a negative input it rounds up toward zero, not down |
| Decimal.NatDigits | src/main/java/com/bastiaanjansen/otp/TOTPGenerator.java:147 | The printed digits denote the number itself, with no leading zero except for 0 |
| Decimal.Show | src/main/java/com/bastiaanjansen/otp/HOTPGenerator.java:98 | `String.valueOf` of an int or long gives non-empty text. It starts with '-' exactly when the value is negative |
| Decimal.Parse | src/main/java/com/bastiaanjansen/otp/TOTPGenerator.java:216 | A parse that succeeds gives a value inside the requested range. Empty text never parses. Its value is fixed by ParseShow and ShowParse on canonical text and by PlusAndZerosIgnored on the rest |
| Decimal.ParseLong | src/main/java/com/bastiaanjansen/otp/TOTPGenerator.java:216 | `Long.parseLong` parses the text `String.valueOf` prints for every long back to that long. Any canonical text it accepts prints back to itself. Accepted text is an optional sign followed by digits |
| Decimal.ParseInt | src/main/java/com/bastiaanjansen/otp/HOTPGenerator.java:42 | `Integer.valueOf` parses the text `String.valueOf` prints for every int back to that int. Any canonical text it accepts prints back to itself. Accepted text is an optional sign followed by digits |
| Decimal.ParseShow | src/main/java/com/bastiaanjansen/otp/TOTPGenerator.java:215-217 | Any value in range, printed in decimal, parses back to itself |
| Decimal.ShowParse | src/main/java/com/bastiaanjansen/otp/HOTPGenerator.java:98 | Canonical text (no '+', no leading zero, no "-0") that parses prints back to the same text. So printing is a bijection onto canonical text |
| Decimal.ShowCanonical | src/main/java/com/bastiaanjansen/otp/HOTPGenerator.java:98 | `String.valueOf` writes canonical decimal: no '+', no leading zero, no "-0" |
| Decimal.PlusAndZerosIgnored | src/main/java/com/bastiaanjansen/otp/TOTPGenerator.java:216 | `Long.parseLong` and `Integer.valueOf` read "+t" and "0t" as t, "-0t" as "-t", and "-t" as t when t denotes zero. With ShowParse, this fixes the value of every accepted text, such as "+30", "030" or "-0" |
| Decimal.LeadingZeroValue | src/main/java/com/bastiaanjansen/otp/HOTPGenerator.java:42 | A leading zero does not change the value of a run of decimal digits |
| Decimal.ParseOfShown | src/main/java/com/bastiaanjansen/otp/TOTPGenerator.java:215-217 | Any text printed for an in-range value parses to exactly that value |
| OtpBase.AlgorithmValueOf | src/main/java/com/bastiaanjansen/otp/HOTPGenerator.java:46 | `HMACAlgorithm.valueOf` finds an algorithm exactly when the text is that algorithm's exact name |
| OtpBase.AlgorithmFromQuery | src/main/java/com/bastiaanjansen/otp/HOTPGenerator.java:44-46 | A query value decodes to an algorithm exactly when its upper-cased form is that algorithm's name |
| OtpBase.ToUpper | src/main/java/com/bastiaanjansen/otp/HOTPGenerator.java:45 | Upper-casing keeps the length and leaves no ASCII lower-case letter. Each of 'a'..'z' becomes its capital, 32 code points lower, and every other character is unchanged |
| OtpBase.AlgorithmNameAnyCase | src/main/java/com/bastiaanjansen/otp/HOTPGenerator.java:44-46 | A query value names an algorithm when its upper-cased form is that algorithm's name |
| OtpBase.AlgorithmNameUpper | src/main/java/com/bastiaanjansen/otp/HOTPGenerator.java:44-47 | Each algorithm's own name is accepted and means that algorithm |
| OtpBase.LowerCaseSha256 | src/main/java/com/bastiaanjansen/otp/HOTPGenerator.java:44-46 | The lower-case value "sha256" is accepted as SHA256 |
| OtpBase.Construct | src/main/java/com/bastiaanjansen/otp/TOTPGenerator.java:38 | The base constructor succeeds exactly when the length is 6 to 8 and the secret is non-empty. It keeps the settings as given. Every failure is an IllegalArgumentException |
| OtpBase.NewBuilder | src/main/java/com/bastiaanjansen/otp/HOTPGenerator.java:38 | A new builder holds the given secret, 6 digits and SHA1 |
| OtpBase.WithPasswordLength | src/main/java/com/bastiaanjansen/otp/HOTPGenerator.java:41-43 | The builder accepts a length exactly when it is 6, 7 or 8. When accepted, only the length changes. A refused length is an IllegalArgumentException |
| OtpBase.WithAlgorithm | src/main/java/com/bastiaanjansen/otp/HOTPGenerator.java:47 | `withAlgorithm` sets the algorithm and leaves length and secret unchanged |
| OtpBase.Build | src/main/java/com/bastiaanjansen/otp/HOTPGenerator.java:52 | Building succeeds exactly when the builder's length is 6 to 8 and its secret is non-empty. The built configuration has the builder's settings. A failed build throws IllegalArgumentException only, and an empty secret with a valid length gives IllegalArgumentException(EmptySecret) |
| OtpBase.RunEngine | src/main/java/com/bastiaanjansen/otp/TOTPGenerator.java:96 | The code is the engine's code. An engine failure surfaces as IllegalStateException and as nothing else |
| OtpBase.BaseQuery | src/main/java/com/bastiaanjansen/otp/TOTPGenerator.java:149 | The shared items are exactly `secret`, `algorithm` and `digits`. `secret` holds the secret's text |
| OtpBase.ApplyFields | src/main/java/com/bastiaanjansen/otp/HOTPGenerator.java:40-50 | The try block succeeds exactly when `digits` and `algorithm` are each absent or well formed. It keeps the secret. An absent field keeps the builder's value, and a present one holds what its text parses to |
| OtpBase.DecodeBuilder | src/main/java/com/bastiaanjansen/otp/HOTPGenerator.java:32-50 | A missing `secret` gives IllegalArgumentException(SecretMissing), and no other input does. With a secret present, URISyntaxException occurs exactly when `digits` or `algorithm` is malformed; no other error occurs. The secret is the value's bytes as-is. Absent fields keep the defaults. Present fields hold what their text parses to |
| OtpBase.DecodeBaseQuery | src/main/java/com/bastiaanjansen/otp/HOTPGenerator.java:34-47 | The shared items written for a valid configuration decode back to the same length, algorithm and secret. Other items do not affect this |
| Totp.OfSeconds | src/main/java/com/bastiaanjansen/otp/TOTPGenerator.java:216 | `Duration.ofSeconds(s)` has whole-seconds part s and no sub-second part |
| Totp.Duration.Seconds | src/main/java/com/bastiaanjansen/otp/TOTPGenerator.java:40 | `getSeconds` is the floor of the milliseconds over 1000, also for negative durations |
| Totp.ToMillis | src/main/java/com/bastiaanjansen/otp/TOTPGenerator.java:160 | `Duration.toMillis` is exact inside the long range. Outside it, it throws ArithmeticException |
| Totp.Create | src/main/java/com/bastiaanjansen/otp/TOTPGenerator.java:37-43 | The constructor succeeds exactly when the base checks pass and the period is at least 1000 ms. When the base checks pass but the period is shorter, it throws IllegalArgumentException(PeriodBelowOneSecond). Every failure is an IllegalArgumentException |
| Totp.DivideByPeriod | src/main/java/com/bastiaanjansen/otp/TOTPGenerator.java:160 | Division by the period fails, with ArithmeticException only, exactly when the period's milliseconds overflow or are zero. For non-negative millis and a positive period, the result is the floor quotient |
| Totp.ExplicitCounter | src/main/java/com/bastiaanjansen/otp/TOTPGenerator.java:159-161 | Failures are ArithmeticException only. For a positive time and a usable period the counter is non-negative and is floor(clamp(secs·1000) / periodMillis). Without saturation it is floor(secs·1000 / periodMillis) |
| Totp.CurrentCounter | src/main/java/com/bastiaanjansen/otp/TOTPGenerator.java:169-171 | Failures are ArithmeticException only. For a usable period the counter is nowMillis / periodMillis rounded toward zero: the floor for nowMillis ≥ 0, and minus the floor of \|nowMillis\| / periodMillis for a negative reading |
| Totp.CounterMonotone | src/main/java/com/bastiaanjansen/otp/TOTPGenerator.java:159-161 | For positive times, the counter never decreases as time increases |
| Totp.CounterStep | src/main/java/com/bastiaanjansen/otp/TOTPGenerator.java:159-161 | For a period of p whole seconds, the counter is k if and only if k·p ≤ secs < (k+1)·p |
| Totp.CounterSaturates | src/main/java/com/bastiaanjansen/otp/TOTPGenerator.java:160 | All times beyond LONG_MAX/1000 seconds share one counter |
| Totp.PathsAgree | src/main/java/com/bastiaanjansen/otp/TOTPGenerator.java:159-171 | For a whole-second period, the clock counter at secs·1000 + r (0 ≤ r < 1000) equals the explicit counter of secs |
| Totp.PathsDisagreeForSubSecondPeriod | src/main/java/com/bastiaanjansen/otp/TOTPGenerator.java:159-171 | The constructor accepts a 1.5 s period. With that period, the clock counter at 1500 ms is 1 but the explicit counter of second 1 is 0 |
| Totp.ValidateTime | src/main/java/com/bastiaanjansen/otp/TOTPGenerator.java:179-181 | An explicit time is accepted exactly when its saturated millisecond count is positive |
| Totp.GenerateAt | src/main/java/com/bastiaanjansen/otp/TOTPGenerator.java:91-97 | `generate(long)` throws IllegalArgumentException(TimeNotAboveZero) exactly when secs ≤ 0. Otherwise the code is the engine's code at the floor time step. A zero period gives ArithmeticException |
| Totp.GenerateNow | src/main/java/com/bastiaanjansen/otp/TOTPGenerator.java:56-59 | `generate()` never fails with the time check's IllegalArgumentException. For a usable period it gives the engine's code at nowMillis / periodMillis rounded toward zero: the floor for nowMillis ≥ 0, minus the floor of \|nowMillis\| / periodMillis below zero. A zero period gives ArithmeticException |
| Totp.GenerateInstant | src/main/java/com/bastiaanjansen/otp/TOTPGenerator.java:68-70 | `generate(Instant)` is `generate(long)` of the whole epoch seconds, ignoring the nanoseconds. It is rejected exactly when they are ≤ 0 |
| Totp.GenerateDate | src/main/java/com/bastiaanjansen/otp/TOTPGenerator.java:79-82 | `generate(Date)` is rejected exactly when the date's millis are below 1000, which includes 0 to 999. Otherwise it is `generate(long)` of the truncated seconds |
| Totp.Verify | src/main/java/com/bastiaanjansen/otp/TOTPGenerator.java:105-108 | `verify(code)` is the base verifier's verdict with no delay window at nowMillis / periodMillis rounded toward zero: the floor for nowMillis ≥ 0, minus the floor of \|nowMillis\| / periodMillis below zero. A zero period gives ArithmeticException |
| Totp.VerifyWithin | src/main/java/com/bastiaanjansen/otp/TOTPGenerator.java:117-120 | `verify(code, w)` is the base verifier's verdict with window w at nowMillis / periodMillis rounded toward zero: the floor for nowMillis ≥ 0, minus the floor of \|nowMillis\| / periodMillis below zero. A zero period gives ArithmeticException |
| Totp.GenerateStepStable | src/main/java/com/bastiaanjansen/otp/TOTPGenerator.java:91-97 | Any two seconds within one time step give the same generate result |
| Totp.GenerateNowAgrees | src/main/java/com/bastiaanjansen/otp/TOTPGenerator.java:56-59 | For a whole-second period, `generate()` at any clock reading within second secs equals `generate(secs)` |
| Totp.VerifyUsesGenerateCounter | src/main/java/com/bastiaanjansen/otp/TOTPGenerator.java:117-120 | For a whole-second period, `verify` at a reading within second secs checks the counter that `generate(secs)` uses |
| Totp.GetUri | src/main/java/com/bastiaanjansen/otp/TOTPGenerator.java:145-150 | The request has type "totp" and the given label parts. Its query has exactly one item, `period`, holding the canonical decimal of the period's whole seconds, which parses back to them |
| Totp.GetUriForIssuer | src/main/java/com/bastiaanjansen/otp/TOTPGenerator.java:133-135 | `getURI(issuer)` is `getURI(issuer, "")` |
| Totp.NewTotpBuilder | src/main/java/com/bastiaanjansen/otp/TOTPGenerator.java:204-207 | A new builder has the base defaults and a 30 s period |
| Totp.WithPeriod | src/main/java/com/bastiaanjansen/otp/TOTPGenerator.java:229-233 | `withPeriod` accepts exactly the periods of at least 1000 ms and then changes only the period. A refused period throws IllegalArgumentException(PeriodBelowOneSecond), and no new builder state exists |
| Totp.BuildTotp | src/main/java/com/bastiaanjansen/otp/TOTPGenerator.java:45-48 | `build` succeeds exactly when the base checks pass. It keeps the builder's period unchecked. Every failure is an IllegalArgumentException |
| Totp.WithDefaultValues | src/main/java/com/bastiaanjansen/otp/TOTPGenerator.java:271-273 | The default TOTP generator is 6 digits, SHA1 and 30 s. It exists exactly for a non-empty secret. An empty secret gives IllegalArgumentException(EmptySecret) |
| Totp.BuilderFromQuery | src/main/java/com/bastiaanjansen/otp/TOTPGenerator.java:209-221 | A missing secret gives IllegalArgumentException. URISyntaxException occurs exactly when `digits` or `algorithm` is malformed or `period` does not parse as a long. An absent period gives 30 s. A present period that parses gives exactly that many seconds, with no lower bound, so zero and negative periods are accepted. No other error occurs |
| Totp.FromOtpAuthUri | src/main/java/com/bastiaanjansen/otp/TOTPGenerator.java:261-263 | A missing secret gives IllegalArgumentException. URISyntaxException occurs exactly when `digits` or `algorithm` is malformed or `period` does not parse. When all fields are well formed, decoding succeeds exactly when the secret's bytes are non-empty. Errors are only URISyntaxException or IllegalArgumentException. A decoded generator is valid and has the query's secret bytes. Its period is 30 s when absent, or else exactly the parsed seconds, with no lower bound. Empty secret bytes with well-formed fields give IllegalArgumentException(EmptySecret) |
| Totp.ZeroPeriodUriBreaksGenerate | src/main/java/com/bastiaanjansen/otp/TOTPGenerator.java:214-220 | The query {secret, period="0"} decodes to a zero period, and `generate(1)` then throws ArithmeticException |
| Totp.NegativePeriodUriCountsDown | src/main/java/com/bastiaanjansen/otp/TOTPGenerator.java:214-220 | The query {secret, period="-30"} decodes to a period of -30 s, and at 60 s the time-step counter is -2 |
| Totp.FromOtpAuthUriChecked | src/main/java/com/bastiaanjansen/otp/TOTPGenerator.java:214-220 | With the period check added, every decoded period is at least 1 s. The result agrees with the unchecked decoding whenever that decoding gives such a period. When the unchecked decoding gives a period below 1 s, the result is URISyntaxException |
| Totp.CheckedUriGenerates | src/main/java/com/bastiaanjansen/otp/TOTPGenerator.java:91-97 | A generator from the checked decoding, if its period fits a long, generates the engine's code at the floor time step for every positive time |
| Totp.UriRoundTrip | src/main/java/com/bastiaanjansen/otp/TOTPGenerator.java:145-150 | For a whole-second period, the items that encoding writes decode back to exactly the same configuration, through both decodings |
| Totp.SubSecondPeriodLost | src/main/java/com/bastiaanjansen/otp/TOTPGenerator.java:147 | `period` holds whole seconds only, so a 1.5 s period decodes back as 1 s |
| Hotp.FromUri | src/main/java/com/bastiaanjansen/otp/HOTPGenerator.java:31-53 | A missing secret gives IllegalArgumentException(SecretMissing), not URISyntaxException. With a secret, URISyntaxException occurs exactly when `digits` or `algorithm` is malformed. A well-formed query succeeds exactly when the secret bytes are non-empty. The secret is used as-is. Absent fields get the defaults. Errors are only URISyntaxException or IllegalArgumentException, and a well-formed query with empty secret bytes gives IllegalArgumentException(EmptySecret) |
| Hotp.WithDefaultValues | src/main/java/com/bastiaanjansen/otp/HOTPGenerator.java:61-63 | The default generator is 6 digits and SHA1 for the secret. It exists exactly for a non-empty secret. An empty secret gives IllegalArgumentException(EmptySecret) |
| Hotp.Generate | src/main/java/com/bastiaanjansen/otp/HOTPGenerator.java:71-73 | `generate(counter)` refuses exactly the negative counters, with IllegalArgumentException(CounterNegative). Otherwise it gives the engine's code for the counter unchanged, and an engine failure is IllegalStateException |
| Hotp.GetUri | src/main/java/com/bastiaanjansen/otp/HOTPGenerator.java:96-101 | The request has type "hotp". Its query has exactly one item, `counter`, holding the canonical decimal of the counter, which parses back to it. The text starts with '-' exactly for a negative counter |
| Hotp.GetUriForIssuer | src/main/java/com/bastiaanjansen/otp/HOTPGenerator.java:83-85 | `getURI(counter, issuer)` is `getURI(counter, issuer, "")` |
| Hotp.FromUriIgnoresCounter | src/main/java/com/bastiaanjansen/otp/HOTPGenerator.java:31-53 | Adding, changing or removing `counter` never changes the decoding result |
| Hotp.MinimalUriIsDefault | src/main/java/com/bastiaanjansen/otp/HOTPGenerator.java:34-47 | A query holding only `secret` decodes to `withDefaultValues` of that secret's bytes |
| Hotp.UriRoundTrip | src/main/java/com/bastiaanjansen/otp/HOTPGenerator.java:96-101 | Whatever the counter, the items that encoding writes decode back to exactly the same configuration |
| Composition.TotpIsHotpAtTimeStep | src/main/java/com/bastiaanjansen/otp/TOTPGenerator.java:95-96 | For a positive time and a usable period the time step's counter is non-negative, and the TOTP code is the HOTP code of the same settings at that counter |
| Composition.DefaultsAgree | src/main/java/com/bastiaanjansen/otp/TOTPGenerator.java:271-273 | The default TOTP generator is the default HOTP generator plus a 30 s period. Each exists exactly when the other does |

## Left out

- The code engine is left abstract. This covers HMAC-SHA1/256/512, dynamic truncation (section 5.3 of RFC 4226) and zero padding. These live in `OTPGenerator` and a crypto library, and here they are the `Engine` parameter.
- The windowed verifier is left abstract. It lives in `OTPGenerator` and is the `Verifier` parameter. `verify(code)` is modelled as the window-0 call; this is an assumption about the base class, listed above.
- Hotp.Generate: the negative-counter check of the base `generate(counter)` is an assumption, because that method is not part of this model; only its declared IllegalArgumentException is visible in the code.
- `System.currentTimeMillis` is not modelled. Its value is the `nowMillis` parameter.
- `URIHelper.queryItems`, URI string and label assembly, and escaping are left out. These are library code or not part of this model. The query is a `map<string, string>`, and `getURI` yields a `UriRequest` holding the arguments of the base `getURI`. Decoding reads only the query. `HOTPGenerator.fromURI` (lines 31-53) checks neither the URI's scheme nor its host, so an `otpauth://totp/...` URI decodes there just like an `hotp` one. `TOTPGenerator.Builder(URI)` checks neither in its own lines either; its `super(uri)` is assumed to decode as `fromURI` does, as listed above. So the model has no scheme or host to check.
- Query items present with a null value are not modelled. `query.get` cannot tell them apart from absent items.
- `String.getBytes` is the `Charset` parameter, because its charset depends on the platform.
- OtpBase.ToUpper: only ASCII letters are upper-cased. Locale-dependent and non-ASCII case mappings of `String.toUpperCase` are not modelled. One example is 'ſ' becoming 'S'.
- Decimal.Parse: only the ASCII digits are accepted. `Character.digit` also accepts other Unicode decimal digits.
- Totp.Duration keeps whole milliseconds. Sub-millisecond nanoseconds of a `Duration` are left out, and so are the nanoseconds of an `Instant`, which the source ignores anyway.
- Builder self-typing, getters and `getBuilder` are left out as plumbing.
- `OTPGenerator`'s own checks are assumed, not shown; the assumptions are listed above. The order of the length check and the empty-secret check, and where the empty-secret check sits, are assumptions, not taken from code.

## Findings

| source | as written | input that shows it | evidently intended | confidence | as-written member | corrected member |
|---|---|---|---|---|---|---|
| src/main/java/com/bastiaanjansen/otp/TOTPGenerator.java:214-220 | `Builder(URI)` reads `period` with `Duration.ofSeconds(Long.parseLong(...))` and has no lower bound. It is the only way to make a generator whose period is below 1 s | the query `secret=k&period=0` builds a generator, and `generate(1)` then throws ArithmeticException (division by zero). `period=-30` gives negative counters (Totp.NegativePeriodUriCountsDown) | refuse a period below 1 s, as the constructor (line 40) and `withPeriod` (line 230) do, as a URISyntaxException like any other failure in that try block | medium, not executed | Totp.ZeroPeriodUriBreaksGenerate | Totp.FromOtpAuthUriChecked |

=== FILE: composition.dfy ===
/** How the two generators share one code engine, differing only in where the counter comes from. */
module Composition {
  import opened JavaNumbers
  import OtpBase
  import Totp
  import Hotp

  /**
   * A time-based code is the counter-based code at the time step's counter:
   * that counter is never negative, so HOTP's counter check always passes.
   */
  lemma TotpIsHotpAtTimeStep(c: Totp.TotpConfig, engine: OtpBase.Engine, secs: Long)
    requires secs > 0 && Totp.UsablePeriod(c.period)
    ensures Totp.ExplicitCounter(secs, c.period).Success?
    ensures Totp.ExplicitCounter(secs, c.period).value >= 0
    ensures Totp.GenerateAt(c, engine, secs)
            == Hotp.Generate(c.otp, engine, Totp.ExplicitCounter(secs, c.period).value)
  {
  }

  /** The default generators of both kinds share their settings; TOTP adds the thirty-second period. */
  lemma DefaultsAgree(secret: seq<OtpBase.Byte>)
    ensures Totp.WithDefaultValues(secret).Success? <==> Hotp.WithDefaultValues(secret).Success?
    ensures Totp.WithDefaultValues(secret).Success? ==>
              Totp.WithDefaultValues(secret).value
              == Totp.TotpConfig(Hotp.WithDefaultValues(secret).value, Totp.DEFAULT_PERIOD)
  {
  }
}

=== FILE: decimal.dfy ===
/**
 * Decimal text of Java integers: Long.toString / String.valueOf on the
 * printing side, Long.parseLong and Integer.valueOf on the parsing side.
 * Only the ASCII digits '0'..'9' are modelled.
 */
module Decimal {
  import opened Outcomes
  import opened JavaNumbers

  predicate IsDigit(c: char) {
    '0' <= c <= '9'
  }

  predicate AllDigits(s: string) {
    forall i :: 0 <= i < |s| ==> IsDigit(s[i])
  }

  function DigitValue(c: char): nat
    requires IsDigit(c)
  {
    (c as int) - ('0' as int)
  }

  function DigitChar(d: nat): (c: char)
    requires d < 10
    ensures IsDigit(c) && DigitValue(c) == d
  {
    (('0' as int) + d) as char
  }

  /** The number a run of decimal digits denotes, most significant digit first. */
  function DigitsValue(ds: string): nat
    requires AllDigits(ds)
  {
    if |ds| == 0 then 0
    else 10 * DigitsValue(ds[..|ds| - 1]) + DigitValue(ds[|ds| - 1])
  }

  /** The shortest run of digits denoting `n`: no leading zero except for zero itself. */
  function NatDigits(n: nat): (s: string)
    ensures |s| > 0 && AllDigits(s)
    ensures DigitsValue(s) == n
    ensures s[0] == '0' <==> n == 0
    ensures n == 0 ==> s == "0"
  {
    if n < 10 then [DigitChar(n)]
    else
      var s := NatDigits(n / 10) + [DigitChar(n % 10)];
      assert s[..|s| - 1] == NatDigits(n / 10);
      s
  }

  /** Long.toString and Integer.toString: a '-' before the digits of a negative value. */
  function Show(n: int): (s: string)
    ensures |s| > 0
    ensures n < 0 <==> s[0] == '-'
  {
    if n < 0 then "-" + NatDigits(-n) else NatDigits(n)
  }

  /** The sign-free digits of a text Parse reads: everything after a leading '-' or '+'. */
  function Body(s: string): string
    requires |s| > 0
  {
    if s[0] == '-' || s[0] == '+' then s[1..] else s
  }

  /**
   * Long.parseLong / Integer.parseInt on a string, for the value range
   * lo..hi: an optional '-' or '+' sign, then at least one digit and
   * nothing else, and a value inside the range; NumberFormatException
   * (None) otherwise.
   */
  function Parse(s: string, lo: int, hi: int): (r: Option<int>)
    ensures r.Some? ==> lo <= r.value <= hi
    ensures |s| == 0 ==> r.None?
  {
    if |s| == 0 then None
    else
      var negative := s[0] == '-';
      var body := Body(s);
      if |body| == 0 || !AllDigits(body) then None
      else
        var magnitude: int := DigitsValue(body);
        var v := if negative then -magnitude else magnitude;
        if lo <= v <= hi then Some(v) else None
  }

  /** Long.parseLong: the value of the decimal text, when it is one and fits a long. */
  function ParseLong(s: string): (r: Option<Long>)
    ensures forall n: Long :: s == Show(n) ==> r == Some(n)
    ensures r.Some? && Canonical(s) ==> Show(r.value) == s
    ensures r.Some? ==> |s| > 0 && AllDigits(Body(s))
  {
    ParseOfShown(s, LONG_MIN, LONG_MAX);
    match Parse(s, LONG_MIN, LONG_MAX)
    case Some(v) => if Canonical(s) then ShowParse(s, LONG_MIN, LONG_MAX); Some(v) else Some(v)
    case None => None
  }

  /** Integer.valueOf(String): the value of the decimal text, when it is one and fits an int. */
  function ParseInt(s: string): (r: Option<Int>)
    ensures forall n: Int :: s == Show(n) ==> r == Some(n)
    ensures r.Some? && Canonical(s) ==> Show(r.value) == s
    ensures r.Some? ==> |s| > 0 && AllDigits(Body(s))
  {
    ParseOfShown(s, INT_MIN, INT_MAX);
    match Parse(s, INT_MIN, INT_MAX)
    case Some(v) => if Canonical(s) then ShowParse(s, INT_MIN, INT_MAX); Some(v) else Some(v)
    case None => None
  }

  /** Text that Show printed for an in-range value parses to that value. */
  lemma ParseOfShown(s: string, lo: int, hi: int)
    ensures forall n :: lo <= n <= hi && s == Show(n) ==> Parse(s, lo, hi) == Some(n)
  {
    forall n | lo <= n <= hi && s == Show(n)
      ensures Parse(s, lo, hi) == Some(n)
    {
      ParseShow(n, lo, hi);
    }
  }

  /** Printing then parsing gives the value back, for every value in range. */
  lemma ParseShow(n: int, lo: int, hi: int)
    requires lo <= n <= hi
    ensures Parse(Show(n), lo, hi) == Some(n)
  {
    var s := Show(n);
    if n < 0 {
      assert s[1..] == NatDigits(-n);
    } else {
      assert s[0] != '-' && s[0] != '+';
    }
  }

  /** A text Show could have produced: no '+', no superfluous zero, no "-0". */
  predicate Canonical(s: string) {
    if |s| > 0 && s[0] == '-' then
      |s| > 1 && AllDigits(s[1..]) && s[1] != '0'
    else
      |s| > 0 && AllDigits(s) && (s[0] != '0' || s == "0")
  }

  /** Show prints canonical text: no '+', no superfluous zero, no "-0". */
  lemma ShowCanonical(n: int)
    ensures Canonical(Show(n))
  {
    if n < 0 {
      assert Show(n)[1..] == NatDigits(-n);
    }
  }

  /** Digits without a leading zero denote at least their first digit, so a positive value. */
  lemma {:induction false} LeadingDigitBound(ds: string)
    requires |ds| > 0 && AllDigits(ds)
    ensures DigitsValue(ds) >= DigitValue(ds[0])
  {
    if |ds| > 1 {
      var init := ds[..|ds| - 1];
      assert init[0] == ds[0];
      LeadingDigitBound(init);
    }
  }

  /** Digits without a leading zero are exactly the digits NatDigits prints for their value. */
  lemma {:induction false} NatDigitsOfValue(ds: string)
    requires |ds| > 0 && AllDigits(ds) && (ds[0] != '0' || |ds| == 1)
    ensures NatDigits(DigitsValue(ds)) == ds
  {
    var n := DigitsValue(ds);
    if |ds| > 1 {
      var init := ds[..|ds| - 1];
      assert init[0] == ds[0];
      LeadingDigitBound(init);
      NatDigitsOfValue(init);
      assert n / 10 == DigitsValue(init);
      assert n % 10 == DigitValue(ds[|ds| - 1]);
      assert ds == init + [ds[|ds| - 1]];
    }
  }

  /** Parsing then printing gives the text back, for every canonical text. */
  lemma ShowParse(s: string, lo: int, hi: int)
    requires Canonical(s) && Parse(s, lo, hi).Some?
    ensures Show(Parse(s, lo, hi).value) == s
  {
    if s[0] == '-' {
      NatDigitsOfValue(s[1..]);
      LeadingDigitBound(s[1..]);
      assert s == "-" + s[1..];
    } else {
      NatDigitsOfValue(s);
    }
  }
  /** A leading zero adds nothing to the value of a run of digits. */
  lemma {:induction false} LeadingZeroValue(ds: string)
    requires AllDigits(ds)
    ensures AllDigits("0" + ds) && DigitsValue("0" + ds) == DigitsValue(ds)
  {
    if |ds| > 0 {
      var init := ds[..|ds| - 1];
      assert ("0" + ds)[..|ds|] == "0" + init;
      LeadingZeroValue(init);
    }
  }

  /** Two texts with the same sign whose digit runs have the same value parse alike. */
  lemma SameValueSameParse(s1: string, s2: string, lo: int, hi: int)
    requires |s1| > 0 && |s2| > 0 && (s1[0] == '-' <==> s2[0] == '-')
    requires |Body(s1)| > 0 && AllDigits(Body(s1)) && |Body(s2)| > 0 && AllDigits(Body(s2))
    requires DigitsValue(Body(s1)) == DigitsValue(Body(s2))
    ensures Parse(s1, lo, hi) == Parse(s2, lo, hi)
  {
  }

  /**
   * The non-canonical texts Long.parseLong and Integer.valueOf accept: a
   * '+' sign, leading zeros, and a '-' before zero are all read as if they
   * were absent.
   */
  lemma PlusAndZerosIgnored(t: string, lo: int, hi: int)
    requires |t| > 0 && AllDigits(t)
    ensures Parse("+" + t, lo, hi) == Parse(t, lo, hi)
    ensures Parse("0" + t, lo, hi) == Parse(t, lo, hi)
    ensures Parse("-0" + t, lo, hi) == Parse("-" + t, lo, hi)
    ensures DigitsValue(t) == 0 ==> Parse("-" + t, lo, hi) == Parse(t, lo, hi)
  {
    LeadingZeroValue(t);
    var plus, zero, minus, minusZero := "+" + t, "0" + t, "-" + t, "-0" + t;
    assert IsDigit(t[0]) && Body(t) == t;
    assert Body(plus) == t;
    assert Body(zero) == zero;
    assert Body(minus) == t;
    assert Body(minusZero) == zero;
    SameValueSameParse(plus, t, lo, hi);
    SameValueSameParse(zero, t, lo, hi);
    SameValueSameParse(minusZero, minus, lo, hi);
    if DigitsValue(t) == 0 {
      assert Parse(minus, lo, hi) == Parse(t, lo, hi);
    }
  }
}

=== FILE: hotp.dfy ===
/**
 * The counter-based generator: decoding an otpauth query, the default
 * generator, the `counter` item of the URI, and generation at a
 * caller-supplied counter.
 */
module Hotp {
  import opened Outcomes
  import opened JavaNumbers
  import opened Decimal
  import opened OtpBase

  const OTP_TYPE: string := "hotp"

  /**
   * fromURI: the common items through the builder, then build. A missing
   * secret is an IllegalArgumentException; a malformed `digits` or
   * `algorithm` is one URISyntaxException. A `counter` item is never read.
   */
  function FromUri(query: map<string, string>, getBytes: Charset): (r: Result<OtpConfig>)
    ensures SECRET !in query <==> r == Failure(IllegalArgument(SecretMissing))
    ensures SECRET in query ==> (r == Failure(UriSyntax) <==> !WellFormedFields(query))
    ensures SECRET in query && WellFormedFields(query) ==>
              (r.Success? <==> |getBytes(query[SECRET])| > 0)
    ensures r.Success? ==> ValidConfig(r.value) && r.value.secret == getBytes(query[SECRET])
    ensures r.Success? && DIGITS !in query ==> r.value.passwordLength == DEFAULT_PASSWORD_LENGTH
    ensures r.Success? && DIGITS in query ==> ParseInt(query[DIGITS]) == Some(r.value.passwordLength)
    ensures r.Success? && ALGORITHM !in query ==> r.value.algorithm == DEFAULT_ALGORITHM
    ensures r.Success? && ALGORITHM in query ==> ToUpper(query[ALGORITHM]) == AlgorithmName(r.value.algorithm)
    ensures r.Failure? ==> r.error == UriSyntax || r.error.IllegalArgument?
    ensures SECRET in query && WellFormedFields(query) && |getBytes(query[SECRET])| == 0 ==>
              r == Failure(IllegalArgument(EmptySecret))
  {
    var b :- DecodeBuilder(query, getBytes);
    Build(b)
  }

  /** withDefaultValues(secret): a new builder for the secret, built. */
  function WithDefaultValues(secret: seq<Byte>): (r: Result<OtpConfig>)
    ensures r.Success? <==> |secret| > 0
    ensures r.Success? ==> r.value == OtpConfig(6, SHA1, secret)
    ensures r.Failure? ==> r.error == IllegalArgument(EmptySecret)
  {
    Build(NewBuilder(secret))
  }

  /**
   * generate(counter): the base generate(counter), which refuses a negative
   * counter with IllegalArgumentException and otherwise runs the engine on
   * the counter as given.
   */
  function Generate(c: OtpConfig, engine: Engine, counter: Long): (r: Result<string>)
    ensures r == Failure(IllegalArgument(CounterNegative)) <==> counter < 0
    ensures counter >= 0 ==> (r.Success? <==> engine(c, counter).Some?)
    ensures counter >= 0 && r.Success? ==> r.value == engine(c, counter).value
    ensures counter >= 0 && r.Failure? ==> r.error == IllegalState
  {
    if counter < 0 then Failure(IllegalArgument(CounterNegative))
    else RunEngine(engine, c, counter)
  }

  /** getURI(counter, issuer, account): the one type-specific item, the counter in decimal. */
  function GetUri(c: OtpConfig, counter: Int, issuer: string, account: string): (u: UriRequest)
    ensures u.otpType == OTP_TYPE && u.issuer == issuer && u.account == account
    ensures u.query.Keys == {COUNTER}
    ensures ParseInt(u.query[COUNTER]) == Some(counter)
    ensures counter < 0 <==> u.query[COUNTER][0] == '-'
    ensures Canonical(u.query[COUNTER])
  {
    ShowCanonical(counter);
    ParseShow(counter, INT_MIN, INT_MAX);
    UriRequest(OTP_TYPE, issuer, account, map[COUNTER := Show(counter)])
  }

  /** getURI(counter, issuer): the same request with an empty account. */
  function GetUriForIssuer(c: OtpConfig, counter: Int, issuer: string): (u: UriRequest)
    ensures u == GetUri(c, counter, issuer, "")
  {
    GetUri(c, counter, issuer, "")
  }

  /** The `counter` item has no effect on decoding, whatever it holds and whether it is there. */
  lemma FromUriIgnoresCounter(query: map<string, string>, getBytes: Charset, value: string)
    ensures FromUri(query[COUNTER := value], getBytes) == FromUri(query, getBytes)
    ensures FromUri(query - {COUNTER}, getBytes) == FromUri(query, getBytes)
  {
    var q1 := query[COUNTER := value];
    var q2 := query - {COUNTER};
    assert forall k :: k != COUNTER ==> (k in q1 <==> k in query) && (k in q2 <==> k in query);
    assert forall k :: k != COUNTER && k in query ==> q1[k] == query[k] && q2[k] == query[k];
  }

  /** A query holding only the secret decodes to the default generator for its bytes. */
  lemma MinimalUriIsDefault(secretText: string, getBytes: Charset)
    ensures FromUri(map[SECRET := secretText], getBytes) == WithDefaultValues(getBytes(secretText))
  {
  }

  /**
   * Encoding then decoding: the items getURI and the base getURI write
   * decode to the generator's settings; the counter is not part of them.
   */
  lemma UriRoundTrip(c: OtpConfig, secretText: string, getBytes: Charset, counter: Int, issuer: string, account: string)
    requires ValidConfig(c) && getBytes(secretText) == c.secret
    ensures FromUri(FullQuery(c, secretText, GetUri(c, counter, issuer, account)), getBytes) == Success(c)
  {
    DecodeBaseQuery(c, secretText, getBytes, GetUri(c, counter, issuer, account).query);
  }
}

=== FILE: java_numbers.dfy ===
/**
 * Java's fixed-width integers and the few library conversions the generators
 * rely on, written out over unbounded integers.
 */
module JavaNumbers {

  const LONG_MIN: int := -0x8000_0000_0000_0000
  const LONG_MAX: int := 0x7fff_ffff_ffff_ffff
  const INT_MIN: int := -0x8000_0000
  const INT_MAX: int := 0x7fff_ffff

  /** A Java `long`. */
  type Long = x: int | LONG_MIN <= x <= LONG_MAX

  /** A Java `int`. */
  type Int = x: int | INT_MIN <= x <= INT_MAX

  function Abs(x: int): nat {
    if x < 0 then -x else x
  }

  /** The long nearest to `x`: what a saturating conversion yields. */
  function Clamp(x: int): Long {
    if x < LONG_MIN then LONG_MIN else if x > LONG_MAX then LONG_MAX else x
  }

  /**
   * Java's long `/`: the quotient is rounded toward zero, so the remainder
   * takes the sign of the dividend; LONG_MIN / -1 overflows back to LONG_MIN.
   */
  function LongDiv(a: Long, b: Long): (q: Long)
    requires b != 0
    ensures a == LONG_MIN && b == -1 ==> q == LONG_MIN
    ensures !(a == LONG_MIN && b == -1) ==>
              var rem := a - q * b;
              Abs(rem) < Abs(b) && (rem == 0 || (rem > 0 <==> a > 0))
  {
    if a == LONG_MIN && b == -1 then LONG_MIN
    else
      QuotientBound(Abs(a), Abs(b));
      var q := if (a >= 0) == (b > 0) then Abs(a) / Abs(b) else -(Abs(a) / Abs(b));
      TruncatedRemainder(a, b, q);
      q
  }

  /** The remainder left by a quotient rounded toward zero. */
  lemma TruncatedRemainder(a: int, b: int, q: int)
    requires b != 0
    requires q == if (a >= 0) == (b > 0) then Abs(a) / Abs(b) else -(Abs(a) / Abs(b))
    ensures Abs(a - q * b) < Abs(b) && (a - q * b == 0 || (a - q * b > 0 <==> a > 0))
  {
    var m := Abs(a) / Abs(b);
    var p := m * Abs(b);
    EuclideanRemainder(Abs(a), Abs(b), m, p);
    SignedProduct(a, b, q, m, p);
    RemainderFromProduct(a, b, q * b, p);
  }

  lemma RemainderFromProduct(a: int, b: int, qb: int, p: int)
    requires b != 0 && p >= 0 && 0 <= Abs(a) - p < Abs(b)
    requires a >= 0 ==> qb == p
    requires a < 0 ==> qb == -p
    ensures Abs(a - qb) < Abs(b) && (a - qb == 0 || (a - qb > 0 <==> a > 0))
  {
  }

  lemma EuclideanRemainder(a: nat, b: nat, m: int, p: int)
    requires b > 0 && m == a / b && p == m * b
    ensures 0 <= p && 0 <= a - p < b
  {
  }

  /** Rounding toward zero gives the quotient the sign of the product of the operands. */
  lemma SignedProduct(a: int, b: int, q: int, m: int, p: int)
    requires b != 0 && p == m * Abs(b)
    requires q == if (a >= 0) == (b > 0) then m else -m
    ensures a >= 0 ==> q * b == p
    ensures a < 0 ==> q * b == -p
  {
  }

  /** A quotient is no larger than its dividend, and at most half of it past a divisor of one. */
  lemma QuotientBound(a: nat, b: nat)
    requires b > 0
    ensures a / b <= a
    ensures b >= 2 ==> 2 * (a / b) <= a
  {
    var m := a / b;
    assert m * b <= a;
    if b >= 2 {
      assert m * b >= m * 2;
    }
  }

  /** The largest seconds value TimeUnit.SECONDS.toMillis converts without saturating. */
  const MAX_EXACT_SECONDS: int := LONG_MAX / 1000

  /** TimeUnit.SECONDS.toMillis: seconds times 1000, saturated to the long range. */
  function SecondsToMillis(s: Long): (m: Long)
    ensures m == Clamp(s * 1000)
    ensures -MAX_EXACT_SECONDS <= s <= MAX_EXACT_SECONDS <==> m == s * 1000
  {
    if s > MAX_EXACT_SECONDS then LONG_MAX
    else if s < -MAX_EXACT_SECONDS then LONG_MIN
    else s * 1000
  }

  /** TimeUnit.MILLISECONDS.toSeconds: milliseconds divided by 1000, rounded toward zero. */
  function MillisToSeconds(ms: Long): (s: Long)
    ensures ms >= 0 ==> s * 1000 <= ms < (s + 1) * 1000
    ensures ms < 0 ==> (s - 1) * 1000 < ms <= s * 1000
  {
    LongDiv(ms, 1000)
  }

  /** Multiplying by a non-negative factor keeps an order. */
  lemma MulMonotone(x: int, y: int, d: int)
    requires x <= y && d >= 0
    ensures x * d <= y * d
  {
    assert y * d - x * d == (y - x) * d;
  }

  /** Floor division by a positive divisor: `k` is the quotient exactly when `a` lies in the k-th block. */
  lemma FloorDivUnique(a: int, d: int, k: int)
    requires d > 0
    ensures a / d == k <==> k * d <= a < (k + 1) * d
  {
    var q := a / d;
    assert q * d <= a < q * d + d;
    assert (q + 1) * d == q * d + d;
    assert (k + 1) * d == k * d + d;
    if k * d <= a < (k + 1) * d {
      if q < k {
        MulMonotone(q + 1, k, d);
      } else if q > k {
        MulMonotone(k + 1, q, d);
      }
    }
  }

  /** Floor division by a positive divisor keeps an order. */
  lemma DivMonotone(a1: int, a2: int, d: int)
    requires a1 <= a2 && d > 0
    ensures a1 / d <= a2 / d
  {
    var q1, q2 := a1 / d, a2 / d;
    FloorDivUnique(a1, d, q1);
    FloorDivUnique(a2, d, q2);
    if q1 > q2 {
      MulMonotone(q2 + 1, q1, d);
      assert false;
    }
  }

  /** Scaling seconds and period alike to milliseconds, plus a sub-second rest, keeps the quotient. */
  lemma DivCancelMillis(s: int, p: int, r: int)
    requires p > 0 && 0 <= r < 1000
    ensures (s * 1000 + r) / (p * 1000) == s / p
  {
    var k := s / p;
    FloorDivUnique(s, p, k);
    assert k * p <= s <= (k + 1) * p - 1;
    MulMonotone(k * p, s, 1000);
    MulMonotone(s, (k + 1) * p - 1, 1000);
    assert k * (p * 1000) == (k * p) * 1000;
    assert (k + 1) * (p * 1000) == ((k + 1) * p) * 1000;
    FloorDivUnique(s * 1000 + r, p * 1000, k);
  }
}

=== FILE: otp_base.dfy ===
/**
 * What the HOTP and TOTP generators share: the configuration a generator is
 * built from, the builder that assembles it, the decoding of the common
 * otpauth query items, and the code engine and verifier both delegate to.
 */
module OtpBase {
  import opened Outcomes
  import opened JavaNumbers
  import opened Decimal

  type Byte = b: int | 0 <= b < 256

  /** HMAC hash functions a generator can use. */
  datatype HmacAlgorithm = SHA1 | SHA256 | SHA512

  /** The enum constant's name, as HMACAlgorithm.name() returns it. */
  function AlgorithmName(a: HmacAlgorithm): string {
    match a
    case SHA1 => "SHA1"
    case SHA256 => "SHA256"
    case SHA512 => "SHA512"
  }

  /** HMACAlgorithm.valueOf: the constant with exactly this name, if any. */
  function AlgorithmValueOf(name: string): (r: Option<HmacAlgorithm>)
    ensures forall a :: r == Some(a) <==> AlgorithmName(a) == name
  {
    if name == "SHA1" then Some(SHA1)
    else if name == "SHA256" then Some(SHA256)
    else if name == "SHA512" then Some(SHA512)
    else None
  }

  function UpperChar(c: char): char {
    if 'a' <= c <= 'z' then (c as int - 32) as char else c
  }

  /** String.toUpperCase restricted to the ASCII letters. */
  function ToUpper(s: string): (u: string)
    ensures |u| == |s|
    ensures forall i :: 0 <= i < |u| ==> !('a' <= u[i] <= 'z')
    ensures forall i :: 0 <= i < |s| && 'a' <= s[i] <= 'z' ==> u[i] as int == s[i] as int - 32
    ensures forall i :: 0 <= i < |s| && !('a' <= s[i] <= 'z') ==> u[i] == s[i]
  {
    seq(|s|, i requires 0 <= i < |s| => UpperChar(s[i]))
  }

  /** The algorithm a query value names, compared after upper-casing. */
  function AlgorithmFromQuery(value: string): (r: Option<HmacAlgorithm>)
    ensures forall a :: r == Some(a) <==> ToUpper(value) == AlgorithmName(a)
  {
    AlgorithmValueOf(ToUpper(value))
  }

  /** The name of an algorithm, in any mix of letter cases, names that algorithm. */
  lemma AlgorithmNameAnyCase(a: HmacAlgorithm, value: string)
    requires ToUpper(value) == AlgorithmName(a)
    ensures AlgorithmFromQuery(value) == Some(a)
  {
  }

  /** Upper-casing leaves the algorithm names as they are. */
  lemma AlgorithmNameUpper(a: HmacAlgorithm)
    ensures AlgorithmFromQuery(AlgorithmName(a)) == Some(a)
  {
    var n := AlgorithmName(a);
    assert ToUpper(n) == n;
  }

  /** A lower-case "sha256" is accepted and means SHA256. */
  lemma LowerCaseSha256()
    ensures AlgorithmFromQuery("sha256") == Some(SHA256)
  {
    assert ToUpper("sha256") == "SHA256";
  }

  const DEFAULT_PASSWORD_LENGTH: Int := 6
  const DEFAULT_ALGORITHM: HmacAlgorithm := SHA1

  /** The settings every generator carries. */
  datatype OtpConfig = OtpConfig(passwordLength: Int, algorithm: HmacAlgorithm, secret: seq<Byte>)

  /** The invariant a built generator keeps. */
  predicate ValidConfig(c: OtpConfig) {
    6 <= c.passwordLength <= 8 && |c.secret| > 0
  }

  /**
   * The base generator constructor: the password length is checked first,
   * then the secret.
   */
  function Construct(passwordLength: Int, algorithm: HmacAlgorithm, secret: seq<Byte>): (r: Result<OtpConfig>)
    ensures r.Success? <==> ValidConfig(OtpConfig(passwordLength, algorithm, secret))
    ensures r.Success? ==> r.value == OtpConfig(passwordLength, algorithm, secret)
    ensures r.Failure? ==> r.error.IllegalArgument?
  {
    if !(6 <= passwordLength <= 8) then Failure(IllegalArgument(PasswordLengthOutOfRange))
    else if |secret| == 0 then Failure(IllegalArgument(EmptySecret))
    else Success(OtpConfig(passwordLength, algorithm, secret))
  }

  /** The builder's state: the settings chosen so far. */
  datatype OtpBuilder = OtpBuilder(passwordLength: Int, algorithm: HmacAlgorithm, secret: seq<Byte>)

  /** A builder for a secret, holding the default length and algorithm. */
  function NewBuilder(secret: seq<Byte>): (b: OtpBuilder)
    ensures b.secret == secret
    ensures b.passwordLength == 6 && b.algorithm == SHA1
  {
    OtpBuilder(DEFAULT_PASSWORD_LENGTH, DEFAULT_ALGORITHM, secret)
  }

  /** Builder.withPasswordLength: only 6, 7 and 8 are accepted. */
  function WithPasswordLength(b: OtpBuilder, n: Int): (r: Result<OtpBuilder>)
    ensures r.Success? <==> 6 <= n <= 8
    ensures r.Success? ==> r.value == b.(passwordLength := n)
    ensures r.Failure? ==> r.error == IllegalArgument(PasswordLengthOutOfRange)
  {
    if 6 <= n <= 8 then Success(b.(passwordLength := n))
    else Failure(IllegalArgument(PasswordLengthOutOfRange))
  }

  /** Builder.withAlgorithm: only the algorithm changes. */
  function WithAlgorithm(b: OtpBuilder, a: HmacAlgorithm): (r: OtpBuilder)
    ensures r.algorithm == a
    ensures r.passwordLength == b.passwordLength && r.secret == b.secret
  {
    b.(algorithm := a)
  }

  /** Builder.build for either generator: the base constructor's checks on the builder's settings. */
  function Build(b: OtpBuilder): (r: Result<OtpConfig>)
    ensures r.Success? <==> 6 <= b.passwordLength <= 8 && |b.secret| > 0
    ensures r.Success? ==> r.value == OtpConfig(b.passwordLength, b.algorithm, b.secret)
    ensures r.Failure? ==> r.error.IllegalArgument?
    ensures 6 <= b.passwordLength <= 8 && |b.secret| == 0 ==> r == Failure(IllegalArgument(EmptySecret))
  {
    Construct(b.passwordLength, b.algorithm, b.secret)
  }

  /** String.getBytes: how the text of a query value becomes secret bytes (a charset). */
  type Charset = string -> seq<Byte>

  /**
   * The code engine: HMAC of the big-endian counter, dynamic truncation and
   * zero padding. None stands for the IllegalStateException it throws when
   * the hash cannot be computed.
   */
  type Engine = (OtpConfig, Long) -> Option<string>

  /** Runs the engine, turning its failure into IllegalStateException. */
  function RunEngine(engine: Engine, c: OtpConfig, counter: Long): (r: Result<string>)
    ensures r.Success? <==> engine(c, counter).Some?
    ensures r.Success? ==> r.value == engine(c, counter).value
    ensures r.Failure? ==> r.error == IllegalState
  {
    match engine(c, counter)
    case Some(code) => Success(code)
    case None => Failure(IllegalState)
  }

  /** The base verifier: code, counter and delay window to a verdict. */
  type Verifier = (OtpConfig, string, Long, Int) -> bool

  /** Names of the otpauth query items. */
  const SECRET: string := "secret"
  const DIGITS: string := "digits"
  const ALGORITHM: string := "algorithm"
  const PERIOD: string := "period"
  const COUNTER: string := "counter"

  /** The arguments of the base getURI: type, label parts and the type-specific query items. */
  datatype UriRequest = UriRequest(otpType: string, issuer: string, account: string, query: map<string, string>)

  /**
   * The query items the base getURI adds for every generator: the secret's
   * text, the algorithm's name and the password length.
   */
  function BaseQuery(c: OtpConfig, secretText: string): (q: map<string, string>)
    ensures q.Keys == {SECRET, ALGORITHM, DIGITS}
    ensures q[SECRET] == secretText
  {
    map[SECRET := secretText, ALGORITHM := AlgorithmName(c.algorithm), DIGITS := Show(c.passwordLength)]
  }

  /** The full query of an otpauth URI: the common items and the type-specific ones. */
  function FullQuery(c: OtpConfig, secretText: string, u: UriRequest): map<string, string> {
    BaseQuery(c, secretText) + u.query
  }

  /** `digits` and `algorithm` are each absent or hold a value the builder accepts. */
  predicate WellFormedFields(query: map<string, string>) {
    && (DIGITS in query ==> ParseInt(query[DIGITS]).Some? && 6 <= ParseInt(query[DIGITS]).value <= 8)
    && (ALGORITHM in query ==> AlgorithmFromQuery(query[ALGORITHM]).Some?)
  }

  /** The try block: `digits` through withPasswordLength, then `algorithm` through withAlgorithm. */
  function ApplyFields(b: OtpBuilder, query: map<string, string>): (r: Option<OtpBuilder>)
    ensures r.Some? <==> WellFormedFields(query)
    ensures r.Some? ==> r.value.secret == b.secret
    ensures r.Some? && DIGITS !in query ==> r.value.passwordLength == b.passwordLength
    ensures r.Some? && DIGITS in query ==> ParseInt(query[DIGITS]) == Some(r.value.passwordLength)
    ensures r.Some? && ALGORITHM !in query ==> r.value.algorithm == b.algorithm
    ensures r.Some? && ALGORITHM in query ==> ToUpper(query[ALGORITHM]) == AlgorithmName(r.value.algorithm)
  {
    var withDigits :=
      if DIGITS !in query then Some(b)
      else match ParseInt(query[DIGITS])
        case None => None
        case Some(n) => match WithPasswordLength(b, n)
          case Success(b') => Some(b')
          case Failure(_) => None;
    match withDigits
    case None => None
    case Some(b') =>
      if ALGORITHM !in query then Some(b')
      else match AlgorithmFromQuery(query[ALGORITHM])
        case None => None
        case Some(a) => Some(WithAlgorithm(b', a))
  }

  /**
   * Decoding the common otpauth query items into a builder. A missing secret
   * is an IllegalArgumentException raised before the try block; every
   * failure inside it becomes the one URISyntaxException.
   */
  function DecodeBuilder(query: map<string, string>, getBytes: Charset): (r: Result<OtpBuilder>)
    ensures SECRET !in query <==> r == Failure(IllegalArgument(SecretMissing))
    ensures SECRET in query ==> (r == Failure(UriSyntax) <==> !WellFormedFields(query))
    ensures r.Success? || r == Failure(UriSyntax) || r == Failure(IllegalArgument(SecretMissing))
    ensures r.Success? ==> r.value.secret == getBytes(query[SECRET])
    ensures r.Success? ==> 6 <= r.value.passwordLength <= 8
    ensures r.Success? && DIGITS !in query ==> r.value.passwordLength == DEFAULT_PASSWORD_LENGTH
    ensures r.Success? && DIGITS in query ==> ParseInt(query[DIGITS]) == Some(r.value.passwordLength)
    ensures r.Success? && ALGORITHM !in query ==> r.value.algorithm == DEFAULT_ALGORITHM
    ensures r.Success? && ALGORITHM in query ==> ToUpper(query[ALGORITHM]) == AlgorithmName(r.value.algorithm)
  {
    if SECRET !in query then Failure(IllegalArgument(SecretMissing))
    else
      match ApplyFields(NewBuilder(getBytes(query[SECRET])), query)
      case None => Failure(UriSyntax)
      case Some(b) => Success(b)
  }

  /** The common items the base getURI writes decode back to the same settings. */
  lemma DecodeBaseQuery(c: OtpConfig, secretText: string, getBytes: Charset, extra: map<string, string>)
    requires ValidConfig(c) && getBytes(secretText) == c.secret
    requires extra.Keys !! {SECRET, ALGORITHM, DIGITS}
    ensures DecodeBuilder(BaseQuery(c, secretText) + extra, getBytes)
            == Success(OtpBuilder(c.passwordLength, c.algorithm, c.secret))
  {
    var q := BaseQuery(c, secretText) + extra;
    ParseShow(c.passwordLength, INT_MIN, INT_MAX);
    assert ParseInt(q[DIGITS]) == Some(c.passwordLength);
    AlgorithmNameUpper(c.algorithm);
  }
}

=== FILE: outcomes.dfy ===
/** Failure-compatible result types and the exceptions the OTP generators let escape. */
module Outcomes {

  /** A value that may be absent: a missing query item, a parse that failed. */
  datatype Option<+T> = None | Some(value: T)

  /** Why an IllegalArgumentException was thrown. */
  datatype Reason =
    | SecretMissing            // the otpauth query has no `secret` item
    | TimeNotAboveZero         // an explicit time of zero seconds or less
    | PeriodBelowOneSecond     // a period whose whole-seconds part is below one
    | PasswordLengthOutOfRange // a password length outside 6..8
    | EmptySecret              // a secret of zero bytes
    | CounterNegative          // an HOTP counter below zero

  /** The exception classes a generator call can end in. */
  datatype Error =
    | IllegalArgument(reason: Reason)
    | UriSyntax   // URISyntaxException "URI could not be parsed"
    | Arithmetic  // ArithmeticException: long division by zero, Duration.toMillis overflow
    | IllegalState // the code engine could not compute the hash

  /** Either a value or the exception that replaced it. */
  datatype Result<+T> = Success(value: T) | Failure(error: Error) {

    predicate IsFailure() {
      Failure?
    }

    function PropagateFailure<U>(): Result<U>
      requires Failure?
    {
      Failure(error)
    }

    function Extract(): T
      requires Success?
    {
      value
    }
  }
}

=== FILE: totp.dfy ===
/**
 * The time-based generator: the period, the time-step counter of section 4.2
 * of RFC 6238 (T0 = 0), the checks on explicit times and periods, and the
 * `period` item of the otpauth URI.
 */
module Totp {
  import opened Outcomes
  import opened JavaNumbers
  import opened Decimal
  import opened OtpBase

  /** A java.time.Duration, to the millisecond. */
  datatype Duration = Duration(millis: int) {
    /** Duration.getSeconds: the whole seconds, rounded down (also for negative durations). */
    function Seconds(): (r: int)
      ensures r * 1000 <= millis < (r + 1) * 1000
    {
      millis / 1000
    }
  }

  /** Duration.ofSeconds. */
  function OfSeconds(s: int): (d: Duration)
    ensures d.Seconds() == s && d.millis % 1000 == 0
  {
    Duration(s * 1000)
  }

  /** Duration.toMillis: exact, or an ArithmeticException past the long range. */
  function ToMillis(d: Duration): (r: Result<Long>)
    ensures r.Success? <==> LONG_MIN <= d.millis <= LONG_MAX
    ensures r.Success? ==> r.value == d.millis
    ensures r.Failure? ==> r.error == Arithmetic
  {
    if LONG_MIN <= d.millis <= LONG_MAX then Success(d.millis) else Failure(Arithmetic)
  }

  /** Builder.DEFAULT_PERIOD: thirty seconds. */
  const DEFAULT_PERIOD: Duration := OfSeconds(30)

  const OTP_TYPE: string := "totp"

  /** A period the counter arithmetic can use: at least a second, and its milliseconds fit a long. */
  predicate UsablePeriod(d: Duration) {
    d.Seconds() >= 1 && d.millis <= LONG_MAX
  }

  /** A period of whole seconds `p`, with `p * 1000` a long. */
  predicate WholeSecondPeriod(d: Duration, p: int) {
    p >= 1 && d == OfSeconds(p) && p * 1000 <= LONG_MAX
  }

  datatype TotpConfig = TotpConfig(otp: OtpConfig, period: Duration)

  /**
   * The public constructor: the base checks, then a period whose
   * whole-seconds part is below one is refused.
   */
  function Create(passwordLength: Int, period: Duration, algorithm: HmacAlgorithm, secret: seq<Byte>): (r: Result<TotpConfig>)
    ensures r.Success? <==> ValidConfig(OtpConfig(passwordLength, algorithm, secret)) && period.millis >= 1000
    ensures ValidConfig(OtpConfig(passwordLength, algorithm, secret)) && period.millis < 1000 ==>
              r == Failure(IllegalArgument(PeriodBelowOneSecond))
    ensures r.Success? ==> r.value == TotpConfig(OtpConfig(passwordLength, algorithm, secret), period)
    ensures r.Failure? ==> r.error.IllegalArgument?
  {
    var base :- Construct(passwordLength, algorithm, secret);
    if period.Seconds() < 1 then Failure(IllegalArgument(PeriodBelowOneSecond))
    else Success(TotpConfig(base, period))
  }

  // ---------------------------------------------------------------------
  // Counter derivation
  // ---------------------------------------------------------------------

  /** `millis / period.toMillis()` in long arithmetic. */
  function DivideByPeriod(millis: Long, period: Duration): (r: Result<Long>)
    ensures r.Success? <==> LONG_MIN <= period.millis <= LONG_MAX && period.millis != 0
    ensures r.Failure? ==> r.error == Arithmetic
    ensures r.Success? && millis >= 0 && period.millis > 0 ==> r.value == millis / period.millis
    ensures r.Success? && millis < 0 && period.millis > 0 ==> r.value == -(Abs(millis) / period.millis)
  {
    match ToMillis(period)
    case Failure(e) => Failure(e)
    case Success(pm) => if pm == 0 then Failure(Arithmetic) else Success(LongDiv(millis, pm))
  }

  /** calculateCounter(secondsPast1970, period): the seconds as saturated milliseconds over the period. */
  function ExplicitCounter(secs: Long, period: Duration): (r: Result<Long>)
    ensures r.Failure? ==> r.error == Arithmetic
    ensures secs > 0 && UsablePeriod(period) ==>
              r.Success? && r.value == Clamp(secs * 1000) / period.millis && r.value >= 0
    ensures 0 < secs <= MAX_EXACT_SECONDS && UsablePeriod(period) ==> r == Success(secs * 1000 / period.millis)
  {
    var millis := SecondsToMillis(secs);
    var r := DivideByPeriod(millis, period);
    if secs > 0 && UsablePeriod(period) then
      assert millis > 0 && r.Success?;
      assert r.value == millis / period.millis;
      DivMonotone(0, millis, period.millis);
      r
    else
      r
  }

  /**
   * calculateCounter(period): the clock's milliseconds over the period,
   * rounded toward zero, so a reading before 1970 rounds up, not down.
   */
  function CurrentCounter(nowMillis: Long, period: Duration): (r: Result<Long>)
    ensures r.Failure? ==> r.error == Arithmetic
    ensures nowMillis >= 0 && UsablePeriod(period) ==> r == Success(nowMillis / period.millis)
    ensures nowMillis < 0 && UsablePeriod(period) ==> r == Success(-(Abs(nowMillis) / period.millis))
  {
    DivideByPeriod(nowMillis, period)
  }

  /** Later times never have a smaller counter. */
  lemma CounterMonotone(s1: Long, s2: Long, period: Duration)
    requires 0 < s1 <= s2 && UsablePeriod(period)
    ensures ExplicitCounter(s1, period).Success? && ExplicitCounter(s2, period).Success?
    ensures ExplicitCounter(s1, period).value <= ExplicitCounter(s2, period).value
  {
    DivMonotone(SecondsToMillis(s1), SecondsToMillis(s2), period.millis);
  }

  /** With a period of `p` whole seconds, the counter is `k` exactly on the seconds in [k*p, (k+1)*p). */
  lemma CounterStep(secs: Long, period: Duration, p: int, k: int)
    requires 0 < secs <= MAX_EXACT_SECONDS && WholeSecondPeriod(period, p)
    ensures ExplicitCounter(secs, period) == Success(k) <==> k * p <= secs < (k + 1) * p
  {
    DivCancelMillis(secs, p, 0);
    FloorDivUnique(secs, p, k);
  }

  /** Past the saturation point of TimeUnit.toMillis every time has the same counter. */
  lemma CounterSaturates(s1: Long, s2: Long, period: Duration)
    requires s1 > MAX_EXACT_SECONDS && s2 > MAX_EXACT_SECONDS
    ensures ExplicitCounter(s1, period) == ExplicitCounter(s2, period)
  {
  }

  /**
   * The clock path and the explicit path agree for whole-second periods:
   * any instant within second `secs` gives the counter of `secs`.
   */
  lemma PathsAgree(secs: Long, r: int, period: Duration, p: int)
    requires 0 < secs && 0 <= r < 1000 && secs * 1000 + r <= LONG_MAX
    requires WholeSecondPeriod(period, p)
    ensures CurrentCounter(secs * 1000 + r, period) == ExplicitCounter(secs, period)
  {
    DivCancelMillis(secs, p, r);
    DivCancelMillis(secs, p, 0);
  }

  /** With a 1.5 s period (which the constructor accepts) the two paths part: 1500 ms and second 1 differ. */
  lemma PathsDisagreeForSubSecondPeriod()
    ensures Create(6, Duration(1500), SHA1, [1]).Success?
    ensures CurrentCounter(1500, Duration(1500)) == Success(1)
    ensures ExplicitCounter(1, Duration(1500)) == Success(0)
  {
  }

  // ---------------------------------------------------------------------
  // Generation and verification
  // ---------------------------------------------------------------------

  /** validateTime: an explicit time is accepted exactly when its milliseconds are positive. */
  predicate ValidateTime(time: Long): (b: bool)
    ensures b <==> SecondsToMillis(time) > 0
  {
    time > 0
  }

  /** generate(secondsPast1970): the time is checked before any counter is computed. */
  function GenerateAt(c: TotpConfig, engine: Engine, secs: Long): (r: Result<string>)
    ensures r == Failure(IllegalArgument(TimeNotAboveZero)) <==> secs <= 0
    ensures secs > 0 && UsablePeriod(c.period) ==>
              r == RunEngine(engine, c.otp, Clamp(secs * 1000) / c.period.millis)
    ensures secs > 0 && c.period.millis == 0 ==> r == Failure(Arithmetic)
  {
    if !ValidateTime(secs) then Failure(IllegalArgument(TimeNotAboveZero))
    else
      var counter :- ExplicitCounter(secs, c.period);
      RunEngine(engine, c.otp, counter)
  }

  /** generate(): the counter of the clock's current milliseconds. */
  function GenerateNow(c: TotpConfig, engine: Engine, nowMillis: Long): (r: Result<string>)
    ensures r != Failure(IllegalArgument(TimeNotAboveZero))
    ensures nowMillis >= 0 && UsablePeriod(c.period) ==>
              r == RunEngine(engine, c.otp, nowMillis / c.period.millis)
    ensures nowMillis < 0 && UsablePeriod(c.period) ==>
              r == RunEngine(engine, c.otp, -(Abs(nowMillis) / c.period.millis))
    ensures c.period.millis == 0 ==> r == Failure(Arithmetic)
  {
    var counter :- CurrentCounter(nowMillis, c.period);
    RunEngine(engine, c.otp, counter)
  }

  /** A java.time.Instant: whole seconds since 1970 and a nanosecond part. */
  datatype Instant = Instant(epochSecond: Long, nano: int)

  /** generate(Instant): the instant's whole seconds, then generate(long). */
  function GenerateInstant(c: TotpConfig, engine: Engine, instant: Instant): (r: Result<string>)
    ensures r == Failure(IllegalArgument(TimeNotAboveZero)) <==> instant.epochSecond <= 0
    ensures r == GenerateAt(c, engine, instant.epochSecond)
  {
    GenerateAt(c, engine, instant.epochSecond)
  }

  /** generate(Date): the date's milliseconds truncated to seconds, then generate(long). */
  function GenerateDate(c: TotpConfig, engine: Engine, dateMillis: Long): (r: Result<string>)
    ensures r == Failure(IllegalArgument(TimeNotAboveZero)) <==> dateMillis < 1000
    ensures dateMillis >= 0 ==> r == GenerateAt(c, engine, dateMillis / 1000)
  {
    GenerateAt(c, engine, MillisToSeconds(dateMillis))
  }

  /** verify(code): the base verifier at the clock's counter, with no delay window. */
  function Verify(c: TotpConfig, verifier: Verifier, nowMillis: Long, code: string): (r: Result<bool>)
    ensures nowMillis >= 0 && UsablePeriod(c.period) ==>
              r == Success(verifier(c.otp, code, nowMillis / c.period.millis, 0))
    ensures nowMillis < 0 && UsablePeriod(c.period) ==>
              r == Success(verifier(c.otp, code, -(Abs(nowMillis) / c.period.millis), 0))
    ensures c.period.millis == 0 ==> r == Failure(Arithmetic)
  {
    VerifyWithin(c, verifier, nowMillis, code, 0)
  }

  /** verify(code, delayWindow): the base verifier at the clock's counter. */
  function VerifyWithin(c: TotpConfig, verifier: Verifier, nowMillis: Long, code: string, delayWindow: Int): (r: Result<bool>)
    ensures nowMillis >= 0 && UsablePeriod(c.period) ==>
              r == Success(verifier(c.otp, code, nowMillis / c.period.millis, delayWindow))
    ensures nowMillis < 0 && UsablePeriod(c.period) ==>
              r == Success(verifier(c.otp, code, -(Abs(nowMillis) / c.period.millis), delayWindow))
    ensures c.period.millis == 0 ==> r == Failure(Arithmetic)
  {
    var counter :- CurrentCounter(nowMillis, c.period);
    Success(verifier(c.otp, code, counter, delayWindow))
  }

  /** Every second of a time step yields the same code. */
  lemma GenerateStepStable(c: TotpConfig, engine: Engine, s1: Long, s2: Long, p: int, k: int)
    requires WholeSecondPeriod(c.period, p)
    requires 0 < s1 <= MAX_EXACT_SECONDS && 0 < s2 <= MAX_EXACT_SECONDS
    requires k * p <= s1 < (k + 1) * p && k * p <= s2 < (k + 1) * p
    ensures GenerateAt(c, engine, s1) == GenerateAt(c, engine, s2)
  {
    CounterStep(s1, c.period, p, k);
    CounterStep(s2, c.period, p, k);
  }

  /** generate() at a clock reading within second `secs` is generate(secs), for whole-second periods. */
  lemma GenerateNowAgrees(c: TotpConfig, engine: Engine, secs: Long, r: int, p: int)
    requires 0 < secs && 0 <= r < 1000 && secs * 1000 + r <= LONG_MAX
    requires WholeSecondPeriod(c.period, p)
    ensures GenerateNow(c, engine, secs * 1000 + r) == GenerateAt(c, engine, secs)
  {
    PathsAgree(secs, r, c.period, p);
  }

  /** verify checks against the counter generate(secs) uses, for a clock reading within second `secs`. */
  lemma VerifyUsesGenerateCounter(c: TotpConfig, verifier: Verifier, secs: Long, r: int, p: int, code: string, w: Int)
    requires 0 < secs && 0 <= r < 1000 && secs * 1000 + r <= LONG_MAX
    requires WholeSecondPeriod(c.period, p)
    ensures ExplicitCounter(secs, c.period).Success?
    ensures VerifyWithin(c, verifier, secs * 1000 + r, code, w)
            == Success(verifier(c.otp, code, ExplicitCounter(secs, c.period).value, w))
  {
    PathsAgree(secs, r, c.period, p);
  }

  // ---------------------------------------------------------------------
  // otpauth URI
  // ---------------------------------------------------------------------

  /** getURI(issuer, account): the one type-specific item, the period's whole seconds. */
  function GetUri(c: TotpConfig, issuer: string, account: string): (u: UriRequest)
    ensures u.otpType == OTP_TYPE && u.issuer == issuer && u.account == account
    ensures u.query.Keys == {PERIOD}
    ensures LONG_MIN <= c.period.Seconds() <= LONG_MAX ==> ParseLong(u.query[PERIOD]) == Some(c.period.Seconds())
    ensures Canonical(u.query[PERIOD])
  {
    ShowCanonical(c.period.Seconds());
    var u := UriRequest(OTP_TYPE, issuer, account, map[PERIOD := Show(c.period.Seconds())]);
    if LONG_MIN <= c.period.Seconds() <= LONG_MAX then
      ParseShow(c.period.Seconds(), LONG_MIN, LONG_MAX);
      u
    else
      u
  }

  /** getURI(issuer): the same request with an empty account. */
  function GetUriForIssuer(c: TotpConfig, issuer: string): (u: UriRequest)
    ensures u == GetUri(c, issuer, "")
  {
    GetUri(c, issuer, "")
  }

  // ---------------------------------------------------------------------
  // Builder
  // ---------------------------------------------------------------------

  datatype TotpBuilder = TotpBuilder(otp: OtpBuilder, period: Duration)

  /** Builder(secret): the base defaults and a thirty-second period. */
  function NewTotpBuilder(secret: seq<Byte>): (b: TotpBuilder)
    ensures b.otp == NewBuilder(secret)
    ensures b.period.millis == 30_000 && b.period.Seconds() == 30
  {
    TotpBuilder(NewBuilder(secret), DEFAULT_PERIOD)
  }

  /**
   * Builder.withPeriod: a period below one whole second is refused and the
   * builder keeps its period; otherwise only the period changes.
   */
  function WithPeriod(b: TotpBuilder, period: Duration): (r: Result<TotpBuilder>)
    ensures r.Success? <==> period.millis >= 1000
    ensures r.Success? ==> r.value.otp == b.otp && r.value.period == period
    ensures r.Failure? ==> r.error == IllegalArgument(PeriodBelowOneSecond)
  {
    if period.Seconds() < 1 then Failure(IllegalArgument(PeriodBelowOneSecond))
    else Success(b.(period := period))
  }

  /** Builder.build: the base constructor's checks; the period is taken as it is. */
  function BuildTotp(b: TotpBuilder): (r: Result<TotpConfig>)
    ensures r.Success? <==> 6 <= b.otp.passwordLength <= 8 && |b.otp.secret| > 0
    ensures r.Success? ==> r.value.period == b.period
    ensures r.Success? ==> r.value.otp == OtpConfig(b.otp.passwordLength, b.otp.algorithm, b.otp.secret)
    ensures r.Failure? ==> r.error.IllegalArgument?
  {
    var otp :- Build(b.otp);
    Success(TotpConfig(otp, b.period))
  }

  /** Builder.withDefaultValues(secret). */
  function WithDefaultValues(secret: seq<Byte>): (r: Result<TotpConfig>)
    ensures r.Success? <==> |secret| > 0
    ensures r.Success? ==> r.value == TotpConfig(OtpConfig(6, SHA1, secret), OfSeconds(30))
    ensures r.Failure? ==> r.error == IllegalArgument(EmptySecret)
  {
    BuildTotp(NewTotpBuilder(secret))
  }

  /**
   * Builder(URI): the common items, then `period` read as a long number of
   * seconds, defaulting to thirty; a period that does not parse is a
   * URISyntaxException. No lower bound is applied to the period.
   */
  function BuilderFromQuery(query: map<string, string>, getBytes: Charset): (r: Result<TotpBuilder>)
    ensures SECRET !in query <==> r == Failure(IllegalArgument(SecretMissing))
    ensures r.Success? ==> DecodeBuilder(query, getBytes) == Success(r.value.otp)
    ensures r.Success? && PERIOD !in query ==> r.value.period == DEFAULT_PERIOD
    ensures r.Success? && PERIOD in query ==>
              r.value.period.millis % 1000 == 0 && ParseLong(query[PERIOD]) == Some(r.value.period.Seconds())
    ensures SECRET in query ==>
              (r == Failure(UriSyntax) <==>
                 !WellFormedFields(query) || (PERIOD in query && ParseLong(query[PERIOD]).None?))
    ensures r.Success? || r == Failure(UriSyntax) || r == Failure(IllegalArgument(SecretMissing))
    ensures SECRET in query && WellFormedFields(query) && PERIOD in query && ParseLong(query[PERIOD]).Some? ==>
              r.Success? && r.value.period == OfSeconds(ParseLong(query[PERIOD]).value)
  {
    var base :- DecodeBuilder(query, getBytes);
    if PERIOD !in query then Success(TotpBuilder(base, DEFAULT_PERIOD))
    else match ParseLong(query[PERIOD])
      case None => Failure(UriSyntax)
      case Some(s) => Success(TotpBuilder(base, OfSeconds(s)))
  }

  /** Builder.fromOTPAuthURI: decode, then build. */
  function FromOtpAuthUri(query: map<string, string>, getBytes: Charset): (r: Result<TotpConfig>)
    ensures SECRET !in query <==> r == Failure(IllegalArgument(SecretMissing))
    ensures r.Success? ==> ValidConfig(r.value.otp) && r.value.otp.secret == getBytes(query[SECRET])
    ensures r.Success? && PERIOD !in query ==> r.value.period == DEFAULT_PERIOD
    ensures r.Success? && PERIOD in query ==> ParseLong(query[PERIOD]) == Some(r.value.period.Seconds())
    ensures SECRET in query ==>
              (r == Failure(UriSyntax) <==>
                 !WellFormedFields(query) || (PERIOD in query && ParseLong(query[PERIOD]).None?))
    ensures SECRET in query && WellFormedFields(query) && (PERIOD !in query || ParseLong(query[PERIOD]).Some?) ==>
              (r.Success? <==> |getBytes(query[SECRET])| > 0)
    ensures r.Failure? ==> r.error == UriSyntax || r.error.IllegalArgument?
    ensures SECRET in query && WellFormedFields(query) && (PERIOD !in query || ParseLong(query[PERIOD]).Some?) ==>
              (|getBytes(query[SECRET])| == 0 ==> r == Failure(IllegalArgument(EmptySecret)))
    ensures r.Success? && PERIOD in query ==> r.value.period == OfSeconds(ParseLong(query[PERIOD]).value)
  {
    var b :- BuilderFromQuery(query, getBytes);
    BuildTotp(b)
  }

  /**
   * A period of "0" passes Builder(URI), and the generator it builds then
   * divides by a zero period: generate(1) ends in ArithmeticException.
   */
  lemma ZeroPeriodUriBreaksGenerate(getBytes: Charset, engine: Engine)
    requires |getBytes("k")| > 0
    ensures var r := FromOtpAuthUri(map[SECRET := "k", PERIOD := "0"], getBytes);
            r.Success? && r.value.period.millis == 0 && GenerateAt(r.value, engine, 1) == Failure(Arithmetic)
  {
    var q := map[SECRET := "k", PERIOD := "0"];
    assert WellFormedFields(q);
    assert ParseLong("0") == Some(0) by {
      assert DigitsValue("0") == 10 * DigitsValue("") + DigitValue('0');
    }
  }

  /** A period of "-30" passes Builder(URI) too, and time steps then count downwards: 60 s is step -2. */
  lemma NegativePeriodUriCountsDown(getBytes: Charset)
    requires |getBytes("k")| > 0
    ensures var r := FromOtpAuthUri(map[SECRET := "k", PERIOD := "-30"], getBytes);
            r.Success? && r.value.period == OfSeconds(-30) && ExplicitCounter(60, r.value.period) == Success(-2)
  {
    var q := map[SECRET := "k", PERIOD := "-30"];
    assert WellFormedFields(q);
    assert ParseLong("-30") == Some(-30) by {
      assert "-30"[1..] == "30";
      assert "30"[..1] == "3";
      assert DigitsValue("30") == 10 * DigitsValue("3") + DigitValue('0');
      assert DigitsValue("3") == 10 * DigitsValue("") + DigitValue('3');
    }
  }

  /**
   * Builder(URI) with the period check the constructor and withPeriod apply:
   * a period below one second is refused as a URISyntaxException, as every
   * failure of the try block is.
   */
  function FromOtpAuthUriChecked(query: map<string, string>, getBytes: Charset): (r: Result<TotpConfig>)
    ensures SECRET !in query <==> r == Failure(IllegalArgument(SecretMissing))
    ensures r.Success? ==> ValidConfig(r.value.otp) && r.value.period.Seconds() >= 1
    ensures r.Success? ==> r == FromOtpAuthUri(query, getBytes)
    ensures FromOtpAuthUri(query, getBytes).Success? && FromOtpAuthUri(query, getBytes).value.period.millis >= 1000
            ==> r == FromOtpAuthUri(query, getBytes)
    ensures FromOtpAuthUri(query, getBytes).Success? && FromOtpAuthUri(query, getBytes).value.period.millis < 1000
            ==> r == Failure(UriSyntax)
  {
    var b :- BuilderFromQuery(query, getBytes);
    if b.period.Seconds() < 1 then Failure(UriSyntax)
    else BuildTotp(b)
  }

  /** A generator decoded with the period check generates for every positive time whose period fits a long. */
  lemma CheckedUriGenerates(query: map<string, string>, getBytes: Charset, engine: Engine, secs: Long)
    requires FromOtpAuthUriChecked(query, getBytes).Success?
    requires FromOtpAuthUriChecked(query, getBytes).value.period.millis <= LONG_MAX
    requires secs > 0
    ensures var c := FromOtpAuthUriChecked(query, getBytes).value;
            GenerateAt(c, engine, secs) == RunEngine(engine, c.otp, Clamp(secs * 1000) / c.period.millis)
  {
  }

  /**
   * Encoding then decoding: the items getURI and the base getURI write
   * decode to the generator's settings, for a period of whole seconds.
   */
  lemma UriRoundTrip(c: TotpConfig, secretText: string, getBytes: Charset, issuer: string, account: string)
    requires ValidConfig(c.otp) && getBytes(secretText) == c.otp.secret
    requires c.period.millis % 1000 == 0 && 1 <= c.period.Seconds() <= LONG_MAX
    ensures FromOtpAuthUri(FullQuery(c.otp, secretText, GetUri(c, issuer, account)), getBytes) == Success(c)
    ensures FromOtpAuthUriChecked(FullQuery(c.otp, secretText, GetUri(c, issuer, account)), getBytes) == Success(c)
  {
    var u := GetUri(c, issuer, account);
    var q := FullQuery(c.otp, secretText, u);
    DecodeBaseQuery(c.otp, secretText, getBytes, u.query);
    assert q[PERIOD] == u.query[PERIOD];
    assert OfSeconds(c.period.Seconds()) == c.period;
  }

  /** The period item holds whole seconds only: a 1.5 s period comes back as 1 s. */
  lemma SubSecondPeriodLost(otp: OtpConfig, secretText: string, getBytes: Charset)
    requires ValidConfig(otp) && getBytes(secretText) == otp.secret
    ensures var c := TotpConfig(otp, Duration(1500));
            FromOtpAuthUri(FullQuery(otp, secretText, GetUri(c, "", "")), getBytes)
            == Success(TotpConfig(otp, Duration(1000)))
  {
    var c := TotpConfig(otp, Duration(1500));
    var u := GetUri(c, "", "");
    DecodeBaseQuery(otp, secretText, getBytes, u.query);
    assert FullQuery(otp, secretText, u)[PERIOD] == u.query[PERIOD];
  }
}
